=== FILE: README.md ===
# User session controller — a Dafny model

This project models the user controller of a video-sharing backend
(`src/controllers/user.controller.js`): registration, login, logout and
refresh-token rotation over a store of user documents, plus the shared helper
that issues an access/refresh token pair and stores the refresh token on the
user.

Each action is a pure transition `(State, request, collaborators) -> Outcome`,
where an `Outcome` is the store after the action plus the reply it sent: a
payload, or one error status (400, 401, 404, 409, 500). Because the store
after a failure is part of the result, "every failure leaves the store
unchanged" is a theorem about each action, not a consequence of the types.

Modules:

- `Base`, `Http` (`base.dfy`): `Option` (JavaScript `undefined`), the error
  statuses, and `Reply`.
- `JsText` (`text.dfy`): `String.prototype.trim` with ECMAScript's exact
  whitespace set, truthiness of an optional string, and ASCII `toLowerCase`.
- `Store` (`store.dfy`): users, tokens, the store, `findById`, `findOne`,
  the sanitised user view, the collaborator record `Env`, and the store
  invariant `Valid` (every stored token is a refresh token about the user who
  holds it, and has already been issued).
- `UserController` (`controller.dfy`): the token helper and the four actions,
  step by step in the source's order.
- `Session` (`session.dfy`): lemmas relating several requests (rotation,
  stale-token rejection, logout, duplicate registration), the invariant
  over any sequence of requests, and revocation that lasts through any later
  requests.
- `Findings` (`findings.dfy`): three defects of the code as written, each
  exhibited and each fixed in a corrected definition.

Abstractions:

- The store is a sequence of users in creation order. A user's id is its
  position, and users are never deleted. `findOne` returns the earliest-created
  match.
- A token is `Token(kind, subject, serial)`. The state holds a counter
  `nextSerial`, and each issue takes fresh serials from it, so a newly issued
  token differs from every earlier one.
- The collaborators are parameters. `signingConfigured` says whether
  `jwt.sign` works. `verifyRefresh` is `jwt.verify` with the refresh secret,
  expiry included. `hash` is the pre-save password hook. `passwordOk` is
  `isPasswordCorrect`. The media host's answers to the two uploads are the
  input `HostReplies`.
- A sequence of requests is a sequence of calls, each a request paired with
  the collaborators as they answer when it is served. A token may expire, and
  signing may fail, between one request and the next.
- The id the authentication middleware attaches for logout (read as
  `req.User._id`) is the input `identity`.

The model follows the code as written, including where it surprises:

- A field that is absent passes the blank check. Only a present, all-whitespace
  field fails it.
- The conflict lookup uses the username as received, but the stored username
  is lower-cased.
- The "no avatar" and "avatar upload failed" cases are both 400.
- In refresh, an unknown user is 401, not 404. The `catch` turns every error
  there, including the helper's 500, into 401.
- The refresh reply's `refreshToken` is `undefined` (see Findings).

## Model

| member | source | states |
|---|---|---|
| JsText.TrimStart | src/controllers/user.controller.js:39 | the result is the suffix of the input starting at its first non-whitespace character; everything dropped is whitespace |
| JsText.TrimEnd | src/controllers/user.controller.js:39 | the result is the prefix ending at the last non-whitespace character; everything dropped is whitespace |
| JsText.Trim | src/controllers/user.controller.js:39 | `trim()` returns a contiguous part of the input such that everything before and after it is whitespace, and it has no whitespace at either end |
| JsText.TrimEmptyIffAllTrimmable | src/controllers/user.controller.js:39 | `field.trim() === ""` holds exactly when every character of the field is ECMAScript whitespace (both directions) |
| JsText.ToLower | src/controllers/user.controller.js:83 | lower-casing keeps the length, maps each ASCII capital to the lower-case letter at the same alphabet position, keeps every other character in place, and leaves no ASCII capital |
| Store.FindOneFrom | src/controllers/user.controller.js:116-118 | the scan from a position returns the first matching user at or after it, or nothing when none matches |
| Store.FindOne | src/controllers/user.controller.js:116-122 | the `$or` lookup finds nothing exactly when no user matches username or email; otherwise it returns a matching user with no earlier match |
| UserController.GenerateAccessAndRefreshToken | src/controllers/user.controller.js:8-22 | succeeds exactly when the user exists and signing works; then both tokens name the user and are fresh, the user's stored token becomes the new refresh token, and no other user changes; any failure is 500 with the store unchanged |
| UserController.CreateUser | src/controllers/user.controller.js:55-92 | a missing avatar path or failed avatar upload is 400 and a throwing path lookup or missing field is 500, all with the store unchanged; success appends exactly one user (lower-cased username, hashed password, avatar and cover URLs, no refresh token) and returns it without its secrets |
| UserController.RegisterUser | src/controllers/user.controller.js:24-100 | a present-but-blank field is 400 before anything else; otherwise a user with the same email or raw username is 409; it succeeds exactly when neither holds, the avatar path and upload are there, and all fields are present; failures leave the store unchanged; the invariant is kept |
| UserController.LoginUser | src/controllers/user.controller.js:102-154 | no truthy email or username is 400, no matching user is 404, a failed password check is 401, a signing failure is 500, all with the store unchanged; on success the user `findOne` returned gets the tokens and its stored token is the returned refresh token, only that field changes, no other user changes, and the returned view omits the secrets |
| UserController.LogoutUser | src/controllers/user.controller.js:156-181 | with an identity it always succeeds and empties that user's refresh token whatever it was, changing nothing else; without one it is 500 with the store unchanged (the `$set` of `undefined` is read as clearing the field; see Left out) |
| UserController.RotateRefreshToken | src/controllers/user.controller.js:184-211 | succeeds exactly when the presented token verifies to an existing user whose stored token it equals and signing works; then the user's stored token is replaced by a fresh one and no one else changes; otherwise the store is unchanged |
| UserController.RefreshAccessToken | src/controllers/user.controller.js:183-226 | every failure is 401 with the store unchanged; it succeeds exactly when the presented token is the verified user's stored token and signing works; then the user's stored token is replaced by a fresh refresh token about that user, different from the one presented, while the rest of that user's record and every other user stay unchanged, and the reply carries no refresh token |
| Session.LoginRevokesEarlierTokens | src/controllers/user.controller.js:12-14 | after a login, any token issued before it that names the same user is refused with 401 |
| Session.LoginTokenRefreshes | src/controllers/user.controller.js:130-147 | the refresh token returned by login is the live one: presenting it refreshes the session |
| Session.RefreshConsumesToken | src/controllers/user.controller.js:202-211 | a refresh token that was just used successfully is refused if presented again |
| Session.RefreshRevokesEarlierTokens | src/controllers/user.controller.js:202-211 | after a refresh, every token issued before it that names the same user is refused |
| Session.AccessTokenNeverRefreshes | src/controllers/user.controller.js:191-204 | an access token never refreshes a session, whatever the verifier says, because only refresh tokens are stored |
| Session.LogoutIdempotent | src/controllers/user.controller.js:157-167 | a second logout gives the same store and the same reply as the first |
| Session.LogoutEndsSession | src/controllers/user.controller.js:157-167 | after logout, every refresh token naming that user is refused |
| Session.RegisterSameEmailConflicts | src/controllers/user.controller.js:45-53 | registering a second time with an already registered email is 409, whatever the uploads |
| Session.RegisterSameLowerUsernameConflicts | src/controllers/user.controller.js:45-53 | registering a second time with the same already-lower-case username is 409 |
| Session.Step | src/controllers/user.controller.js:228-233 | any of the four actions leaves the store unchanged when it fails, keeps the invariant, and never removes users or rewinds the counter |
| Session.RunPreservesValid | src/controllers/user.controller.js:24-226 | any sequence of requests, each served with its own collaborators, keeps every stored token an already-issued refresh token about the user who holds it |
| Session.RunGrows | src/controllers/user.controller.js:24-226 | over any sequence of requests, each with its own collaborators, users are only added and the issue counter only grows |
| Session.FailedRunUnchanged | src/controllers/user.controller.js:24-226 | a sequence of requests, each with its own collaborators, that all fail on the starting store leaves the store exactly as it was |
| Session.ReachableValid | src/controllers/user.controller.js:24-226 | every store reachable from the empty one, whatever the collaborators answer at each request, satisfies the invariant: each stored token is an already-issued refresh token about its holder |
| Session.RegisterKeepsNoTokenBefore | src/controllers/user.controller.js:77-92 | registration never gives an existing user a token issued before a given point |
| Session.LoginKeepsNoTokenBefore | src/controllers/user.controller.js:130-147 | login never gives a user a token issued before a given point: it leaves the token alone or stores a fresh one |
| Session.LogoutKeepsNoTokenBefore | src/controllers/user.controller.js:156-167 | logout never gives a user a token issued before a given point: it leaves the token alone or clears it |
| Session.RefreshKeepsNoTokenBefore | src/controllers/user.controller.js:183-211 | refresh never gives a user a token issued before a given point: it leaves the token alone or stores a fresh one |
| Session.StepKeepsNoTokenBefore | src/controllers/user.controller.js:24-226 | no single request of any kind gives a user a token issued before a given point |
| Session.RunKeepsNoTokenBefore | src/controllers/user.controller.js:24-226 | no sequence of requests, with any collaborators, gives a user a token issued before a given point |
| Session.StaleTokenRefused | src/controllers/user.controller.js:191-204 | a refresh token about a user issued before a point the user's stored token is not older than is refused with 401 and the store unchanged, whatever the verifier answers |
| Session.ConsumedTokenStaysRevoked | src/controllers/user.controller.js:202-211 | a refresh token consumed by a successful refresh is refused with 401 after any later sequence of requests, whatever the collaborators answer then |
| Session.LoginRevokesEarlierTokensForever | src/controllers/user.controller.js:12-14 | every refresh token issued to a user before that user's successful login is refused with 401 after any later sequence of requests |
| Session.LogoutRevokesTokensForever | src/controllers/user.controller.js:156-167 | every refresh token issued to an existing user before that user's logout is refused with 401 after any later sequence of requests |
| Findings.RefreshStrandsClient | src/controllers/user.controller.js:211-219 | as written, a successful refresh returns no refresh token, and neither the consumed token nor the returned access token refreshes again |
| Findings.RefreshStrandsClientExample | src/controllers/user.controller.js:211 | a concrete store where the refresh succeeds, the reply's refresh token is undefined, and the client's only refresh token is then refused |
| Findings.RefreshAccessTokenCorrected | src/controllers/user.controller.js:211 | the corrected refresh returns exactly the fresh refresh token now stored for the user, whose record otherwise stays unchanged |
| Findings.CorrectedRefreshChains | src/controllers/user.controller.js:211 | with the correction, the returned refresh token refreshes again |
| Findings.RegisterAdmitsCaseVariant | src/controllers/user.controller.js:45-83 | as written, a username whose lower-cased form is stored (raw form not stored, email new) registers, and the store then holds that username twice |
| Findings.RegisterAdmitsCaseVariantDuplicate | src/controllers/user.controller.js:45-83 | as written, "Alice" registers while "alice" exists, leaving two users named "alice" |
| Findings.NotBlank | src/controllers/user.controller.js:39 | a field whose first character is not whitespace passes the blank check |
| Findings.AppendKeepsUnique | src/controllers/user.controller.js:77-84 | appending a user whose username (email) nobody has keeps usernames (emails) unique |
| Findings.RegisterUserCorrected | src/controllers/user.controller.js:45-84 | the corrected registration is 400 on a blank field and 409 when the lower-cased username or the email is stored; it succeeds exactly when neither holds and the avatar path, upload and all fields are there, appending the same user as the original; failures leave the store unchanged; usernames and emails stay unique |
| Findings.CorrectedAgreesWithoutConflict | src/controllers/user.controller.js:45-84 | when neither the raw nor the lower-cased lookup finds a user, the corrected registration gives exactly the original's store and reply |
| Findings.RegisterKeepsEmailsUnique | src/controllers/user.controller.js:45-53 | the registration as written keeps emails unique |
| Findings.LogoutUserUndefinedDropped | src/controllers/user.controller.js:156-167 | when the store drops `undefined` keys from the update, logout reports success for any identity yet leaves the store exactly as it was |
| Findings.LogoutLeavesSessionOpen | src/controllers/user.controller.js:156-167 | under that reading, the refresh token a user held before a successful logout still refreshes afterwards |

## Left out

- Document-store access (`findById`, `findOne`, `create`, `save`, `findByIdAndUpdate`) is the abstract store. Database failures, single-document atomicity and the race between two concurrent refreshes are not modelled.
- Token signing and verification are the collaborators `signingConfigured` and `verifyRefresh`. Expiry is part of `verifyRefresh`. A verified payload without an `_id` is folded into "does not verify"; both give 401.
- Tokens are opaque values. An empty-string cookie or body token, which is falsy in JavaScript, is modelled as absent.
- Token freshness is an abstraction. Real tokens signed with the same payload in the same second are byte-identical, and this model gives every issued token a distinct serial.
- Password hashing and `isPasswordCorrect` live in the user model file, which is not part of this model. They are the collaborators `hash` and `passwordOk`.
- UserController.LoginUser: a missing password is passed to `passwordOk`. The hash comparison behind it may throw instead, which would be a 500.
- The user schema (required fields, unique indexes, lower-casing and trimming setters) is not part of this model. The model takes a missing fullname, email or password at creation to be a 500. It does not model a unique index, which would turn the case-variant duplicate of the second finding into a 500.
- A body field that is not a string (for which `trim` throws) is not modelled. Fields are strings or absent.
- A lookup criterion whose value is absent is taken to match no user. The driver sends it as `null`, and no stored user lacks a username or email.
- JsText.ToLower: only ASCII letters are lower-cased. JavaScript's `toLowerCase` also maps non-ASCII letters.
- Uploads to the media host and temporary-file handling are out. The host's answers are the input `HostReplies`, and a missing cover path is taken to give no cover URL.
- The `ApiResponse`/`ApiError` envelopes, messages, success status codes (201 for register, 200 otherwise), cookies and `asyncHandler` are out. The refresh action's cookies, which are set to the options object rather than to the tokens, are left out with the rest of the cookies.
- UserController.LogoutUser: models the `$set` of `undefined` at line 161 as clearing the stored token, as Mongoose 5 does. Mongoose 6 and later drop `undefined` keys, which makes the update a no-op; the library version is not in the modelled file (third finding).
- The authentication middleware is not part of this model. Logout takes its identity as an input. The model assumes the middleware attaches the user as `req.User`, the name line 158 reads; `None` stands for it attaching nothing, so that reading `_id` of `undefined` throws (500). If the middleware attaches `req.user` instead, every logout is `LogoutUser(s, None)`: a 500 with the store unchanged, and the `Some` cases never occur.
- The post-create lookup miss in register (500) is modelled as written, and is proved unreachable.
- Password change, profile and image updates, channel profile and watch history are not in the modelled file.

## Findings

| source | as written | input that shows it | evidently intended | confidence | as-written member | corrected member |
|---|---|---|---|---|---|---|
| src/controllers/user.controller.js:211 | destructures `newRefreshToken` from `{accessToken, refreshToken}`, so the reply's `refreshToken` is undefined while the store holds a new token the client never receives | user 0 stores refresh token T; refresh presenting T | the reply carries the rotated refresh token, so the session can be refreshed again | high; not executed | UserController.RefreshAccessToken, shown by Findings.RefreshStrandsClient and Findings.RefreshStrandsClientExample | Findings.RefreshAccessTokenCorrected, with Findings.CorrectedRefreshChains |
| src/controllers/user.controller.js:45-47 | the conflict lookup compares the username as received with usernames stored lower-cased (line 83) | store holds "alice"; register "Alice" with a new email | the lookup lower-cases the username, so usernames stay unique | medium (the user schema, not part of this model, may lower-case query values or reject the duplicate by index); not executed | UserController.RegisterUser, shown by Findings.RegisterAdmitsCaseVariant and Findings.RegisterAdmitsCaseVariantDuplicate | Findings.RegisterUserCorrected |
| src/controllers/user.controller.js:159-163 | sets `refreshToken` to `undefined`; a store that drops `undefined` keys from an update (Mongoose 6 and later) makes this an empty update | user 0 stores refresh token T; logout as user 0, then refresh presenting T | logout removes the stored refresh token (`$unset`, or `null`), so the token no longer refreshes | medium (depends on the Mongoose version, which the modelled file does not pin); not executed | Findings.LogoutUserUndefinedDropped, shown by Findings.LogoutLeavesSessionOpen | UserController.LogoutUser, with Session.LogoutEndsSession |

=== FILE: base.dfy ===
/** Small value types shared by the whole model. */
module Base {

  /** A value that may be missing; stands for JavaScript's `undefined`. */
  datatype Option<+T> = None | Some(value: T)
}

/** The HTTP outcome of a controller action, reduced to what the controller decides. */
module Http {

  /** The error statuses the controller throws through `ApiError` (or lets an
      uncaught exception turn into): 400, 401, 404, 409 and 500. */
  datatype Status = BadRequest | Unauthorized | NotFound | Conflict | InternalError

  /** A successful payload or the one error status the action ends with. */
  datatype Reply<+R> = Ok(value: R) | Err(error: Status)
}

=== FILE: controller.dfy ===
/** The user controller: token issuance and the register, login, logout and
    refresh actions, each a transition over the store that ends in one reply. */
module UserController {
  import opened Base
  import opened Http
  import opened JsText
  import opened Store

  // ---------------------------------------------------------------------
  // genrateAccessAndRefreshToken
  // ---------------------------------------------------------------------

  /** The object `{accessToken, refreshToken}` the helper returns. */
  datatype TokenPair = TokenPair(accessToken: Token, refreshToken: Token)

  /** Reading property `key` of that object: any other key is `undefined`. */
  function PairProperty(pair: TokenPair, key: string): Option<Token>
  {
    if key == "accessToken" then Some(pair.accessToken)
    else if key == "refreshToken" then Some(pair.refreshToken)
    else None
  }

  /** Looks the user up again, signs an access and a refresh token, stores the
      refresh token on the user and saves. Any failure (the user is gone, the
      signer throws) surfaces as 500 before anything is saved. */
  function GenerateAccessAndRefreshToken(s: State, id: UserId, env: Env): (o: Outcome<TokenPair>)
    ensures o.reply.Err? ==> o.state == s && o.reply.error == InternalError
    ensures o.reply.Ok? <==> id < |s.users| && env.signingConfigured
    ensures o.reply.Ok? ==>
      var pair := o.reply.value;
      && pair.accessToken.kind == Access && pair.refreshToken.kind == Refresh
      && pair.accessToken.subject == id && pair.refreshToken.subject == id
      && s.nextSerial <= pair.accessToken.serial < pair.refreshToken.serial < o.state.nextSerial
      && |o.state.users| == |s.users|
      && o.state.users[id] == s.users[id].(refreshToken := Some(pair.refreshToken))
      && forall j :: 0 <= j < |s.users| && j != id ==> o.state.users[j] == s.users[j]
    ensures Valid(s) ==> Valid(o.state)
  {
    match FindById(s, id)
    case None => Outcome(s, Err(InternalError))
    case Some(u) =>
      if !env.signingConfigured then Outcome(s, Err(InternalError))
      else
        var access := Token(Access, id, s.nextSerial);
        var refresh := Token(Refresh, id, s.nextSerial + 1);
        var saved := SetRefreshToken(s, id, Some(refresh)).(nextSerial := s.nextSerial + 2);
        Outcome(saved, Ok(TokenPair(access, refresh)))
  }

  // ---------------------------------------------------------------------
  // registerUser
  // ---------------------------------------------------------------------

  /** One entry of a multipart field as parsed by the upload middleware. */
  datatype FileEntry = FileEntry(path: string)

  /** `req.files`: each key is present only when that field was uploaded. */
  datatype Files = Files(avatar: Option<seq<FileEntry>>, coverImage: Option<seq<FileEntry>>)

  datatype RegisterRequest = RegisterRequest(
    fullname: Option<string>,
    username: Option<string>,
    email: Option<string>,
    password: Option<string>,
    files: Option<Files>)

  /** What the media host answered for the avatar and the cover image
      uploads: the URL, or nothing when the upload failed. */
  datatype HostReplies = HostReplies(avatarUrl: Option<string>, coverImageUrl: Option<string>)

  /** Some of fullname, email, username, password is present but blank. */
  predicate AnyBlank(req: RegisterRequest) {
    || IsBlankField(req.fullname) || IsBlankField(req.email)
    || IsBlankField(req.username) || IsBlankField(req.password)
  }

  /** The conflict lookup's filter: the email and the username exactly as
      received, not lower-cased. */
  function ConflictCriteria(req: RegisterRequest): Criteria {
    Criteria(req.username, req.email)
  }

  /** `req.files?.avatar[0]?.path`: undefined without `req.files`; a
      TypeError (500) when `req.files` exists but has no `avatar` key. */
  function AvatarLocalPath(files: Option<Files>): Reply<Option<string>>
  {
    match files
    case None => Ok(None)
    case Some(f) =>
      match f.avatar
      case None => Err(InternalError)
      case Some(entries) => if |entries| == 0 then Ok(None) else Ok(Some(entries[0].path))
  }

  /** The first cover image's path when `req.files.coverImage` is a non-empty
      array, otherwise undefined. */
  function CoverImageLocalPath(files: Option<Files>): Option<string>
  {
    if files.Some? && files.value.coverImage.Some? && |files.value.coverImage.value| > 0
    then Some(files.value.coverImage.value[0].path)
    else None
  }

  /** The avatar path is a non-empty string. */
  predicate HasAvatarPath(files: Option<Files>) {
    var p := AvatarLocalPath(files);
    p.Ok? && Truthy(p.value)
  }

  /** The cover URL that is stored: the host's URL when a cover file was
      uploaded and the host returned one, `""` otherwise. */
  function CoverImageUrl(files: Option<Files>, host: HostReplies): string
  {
    if Truthy(CoverImageLocalPath(files)) && host.coverImageUrl.Some?
    then host.coverImageUrl.value
    else ""
  }

  /** All four body fields are present (a missing username makes
      `username.toLowerCase()` throw; a missing fullname, email or password
      fails the schema's `required`). */
  predicate AllPresent(req: RegisterRequest) {
    req.fullname.Some? && req.username.Some? && req.email.Some? && req.password.Some?
  }

  /** A successful registration: exactly one user is appended, carrying the
      lower-cased username, the hashed password, the avatar URL, the cover URL
      or `""`, and no session; the reply is that user without its secrets. */
  predicate Registered(s: State, req: RegisterRequest, host: HostReplies, env: Env, o: Outcome<UserView>)
    requires o.reply.Ok?
  {
    && AllPresent(req) && host.avatarUrl.Some?
    && o.state.nextSerial == s.nextSerial
    && |o.state.users| == |s.users| + 1
    && o.state.users[..|s.users|] == s.users
    && var u := o.state.users[|s.users|];
    && u.username == ToLower(req.username.value)
    && u.email == req.email.value
    && u.fullname == req.fullname.value
    && u.passwordHash == env.hash(req.password.value)
    && u.avatar == host.avatarUrl.value
    && u.coverImage == CoverImageUrl(req.files, host)
    && u.refreshToken.None?
    && o.reply.value == Sanitize(|s.users|, u)
  }

  /** Steps after the conflict check: avatar path, uploads, create, re-read. */
  function CreateUser(s: State, req: RegisterRequest, host: HostReplies, env: Env): (o: Outcome<UserView>)
    ensures o.reply.Err? ==> o.state == s
    ensures o.reply.Ok? <==> HasAvatarPath(req.files) && host.avatarUrl.Some? && AllPresent(req)
    ensures AvatarLocalPath(req.files).Err? ==> o.reply == Err(InternalError)
    ensures AvatarLocalPath(req.files).Ok? && !HasAvatarPath(req.files) ==> o.reply == Err(BadRequest)
    ensures HasAvatarPath(req.files) && host.avatarUrl.None? ==> o.reply == Err(BadRequest)
    ensures HasAvatarPath(req.files) && host.avatarUrl.Some? && !AllPresent(req) ==>
      o.reply == Err(InternalError)
    ensures o.reply.Ok? ==> Registered(s, req, host, env, o)
    ensures Valid(s) ==> Valid(o.state)
  {
    match AvatarLocalPath(req.files)
    case Err(e) => Outcome(s, Err(e))
    case Ok(avatarPath) =>
      if !Truthy(avatarPath) then Outcome(s, Err(BadRequest))
      else if host.avatarUrl.None? then Outcome(s, Err(BadRequest))
      else if !AllPresent(req) then Outcome(s, Err(InternalError))
      else
        var u := User(
          ToLower(req.username.value), req.email.value, req.fullname.value,
          env.hash(req.password.value), host.avatarUrl.value,
          CoverImageUrl(req.files, host), None);
        var created := s.(users := s.users + [u]);
        var id := |s.users|;
        match FindById(created, id)
        case None => Outcome(created, Err(InternalError))
        case Some(v) => Outcome(created, Ok(Sanitize(id, v)))
  }

  /** `registerUser`: blank check, conflict check, then creation. */
  function RegisterUser(s: State, req: RegisterRequest, host: HostReplies, env: Env): (o: Outcome<UserView>)
    ensures o.reply.Err? ==> o.state == s
    ensures AnyBlank(req) ==> o.reply == Err(BadRequest)
    ensures !AnyBlank(req) && AnyMatch(s.users, ConflictCriteria(req)) ==> o.reply == Err(Conflict)
    ensures o.reply.Ok? <==>
      && !AnyBlank(req) && !AnyMatch(s.users, ConflictCriteria(req))
      && HasAvatarPath(req.files) && host.avatarUrl.Some? && AllPresent(req)
    ensures o.reply.Ok? ==> Registered(s, req, host, env, o)
    ensures Valid(s) ==> Valid(o.state)
  {
    if AnyBlank(req) then Outcome(s, Err(BadRequest))
    else if FindOne(s.users, ConflictCriteria(req)).Some? then Outcome(s, Err(Conflict))
    else CreateUser(s, req, host, env)
  }

  // ---------------------------------------------------------------------
  // loginUser
  // ---------------------------------------------------------------------

  datatype LoginRequest = LoginRequest(email: Option<string>, username: Option<string>, password: Option<string>)

  /** `{user: loggedInUser, accessToken, refreshToken}`. */
  datatype LoginResponse = LoginResponse(user: Option<UserView>, accessToken: Token, refreshToken: Token)

  /** The login lookup's filter: the username as received, and the email. */
  function LoginCriteria(req: LoginRequest): Criteria {
    Criteria(req.username, req.email)
  }

  /** `loginUser`. */
  function LoginUser(s: State, req: LoginRequest, env: Env): (o: Outcome<LoginResponse>)
    ensures o.reply.Err? ==> o.state == s
    ensures !(Truthy(req.email) || Truthy(req.username)) ==> o.reply == Err(BadRequest)
    ensures (Truthy(req.email) || Truthy(req.username)) && !AnyMatch(s.users, LoginCriteria(req)) ==>
      o.reply == Err(NotFound)
    ensures (Truthy(req.email) || Truthy(req.username)) && FindOne(s.users, LoginCriteria(req)).Some? ==>
      var id := FindOne(s.users, LoginCriteria(req)).value;
      && (!env.passwordOk(s.users[id], req.password) ==> o.reply == Err(Unauthorized))
      && (env.passwordOk(s.users[id], req.password) && !env.signingConfigured ==> o.reply == Err(InternalError))
      && (env.passwordOk(s.users[id], req.password) && env.signingConfigured ==> o.reply.Ok?)
    ensures o.reply.Ok? ==>
      var resp := o.reply.value;
      && resp.user.Some?
      && var id := resp.user.value.id;
      && id < |s.users|
      && id == FindOne(s.users, LoginCriteria(req)).value
      && Matches(s.users[id], LoginCriteria(req))
      && env.passwordOk(s.users[id], req.password)
      && resp.user.value == Sanitize(id, s.users[id])
      && resp.refreshToken.kind == Refresh && resp.refreshToken.subject == id
      && resp.accessToken.kind == Access && resp.accessToken.subject == id
      && s.nextSerial <= resp.refreshToken.serial < o.state.nextSerial
      && |o.state.users| == |s.users|
      && o.state.users[id] == s.users[id].(refreshToken := Some(resp.refreshToken))
      && forall j :: 0 <= j < |s.users| && j != id ==> o.state.users[j] == s.users[j]
    ensures Valid(s) ==> Valid(o.state)
  {
    if !(Truthy(req.email) || Truthy(req.username)) then Outcome(s, Err(BadRequest))
    else
      match FindOne(s.users, LoginCriteria(req))
      case None => Outcome(s, Err(NotFound))
      case Some(id) =>
        if !env.passwordOk(s.users[id], req.password) then Outcome(s, Err(Unauthorized))
        else
          var g := GenerateAccessAndRefreshToken(s, id, env);
          match g.reply
          case Err(e) => Outcome(g.state, Err(e))
          case Ok(pair) =>
            var loggedIn := match FindById(g.state, id)
              case None => None
              case Some(v) => Some(Sanitize(id, v));
            Outcome(g.state, Ok(LoginResponse(loggedIn, pair.accessToken, pair.refreshToken)))
  }

  // ---------------------------------------------------------------------
  // logoutUser
  // ---------------------------------------------------------------------

  /** `logoutUser` for the identity the authentication middleware attached
      (`None` when it attached none, so reading `_id` throws). An id with no
      record updates nothing and still succeeds. */
  function LogoutUser(s: State, identity: Option<UserId>): (o: Outcome<()>)
    ensures o.reply.Err? ==> o.state == s
    ensures o.reply.Ok? <==> identity.Some?
    ensures o.state.nextSerial == s.nextSerial && |o.state.users| == |s.users|
    ensures identity.Some? && identity.value < |s.users| ==>
      o.state.users[identity.value] == s.users[identity.value].(refreshToken := None)
    ensures forall j :: 0 <= j < |s.users| && identity != Some(j) ==> o.state.users[j] == s.users[j]
    ensures Valid(s) ==> Valid(o.state)
  {
    match identity
    case None => Outcome(s, Err(InternalError))
    case Some(id) =>
      if id < |s.users| then Outcome(SetRefreshToken(s, id, None), Ok(()))
      else Outcome(s, Ok(()))
  }

  // ---------------------------------------------------------------------
  // refreshAccessToken
  // ---------------------------------------------------------------------

  /** The refresh token offered as a cookie and in the body. */
  datatype RefreshRequest = RefreshRequest(cookie: Option<Token>, body: Option<Token>)

  /** `{accessToken, refreshToken}` as sent back by the refresh action. */
  datatype RefreshResponse = RefreshResponse(accessToken: Option<Token>, refreshToken: Option<Token>)

  /** `req.cookies.refreshToken || req.body.refreshToken`. */
  function IncomingRefreshToken(req: RefreshRequest): Option<Token>
  {
    if req.cookie.Some? then req.cookie else req.body
  }

  /** The refresh token is presented, verifies to an existing user, and is
      exactly that user's stored token. */
  predicate RefreshAccepted(s: State, req: RefreshRequest, env: Env) {
    var t := IncomingRefreshToken(req);
    && t.Some?
    && env.verifyRefresh(t.value).Some?
    && var id := env.verifyRefresh(t.value).value;
    && id < |s.users|
    && s.users[id].refreshToken == t
  }

  /** The body of the `try` block up to the token rotation: the checks, in the
      source's order, and the new pair. */
  function RotateRefreshToken(s: State, req: RefreshRequest, env: Env): (o: Outcome<TokenPair>)
    ensures o.reply.Err? ==> o.state == s
    ensures o.reply.Ok? <==> RefreshAccepted(s, req, env) && env.signingConfigured
    ensures o.reply.Ok? ==>
      var t := IncomingRefreshToken(req).value;
      var id := env.verifyRefresh(t).value;
      var pair := o.reply.value;
      && pair.refreshToken.kind == Refresh && pair.refreshToken.subject == id
      && pair.accessToken.kind == Access && pair.accessToken.subject == id
      && s.nextSerial <= pair.accessToken.serial < pair.refreshToken.serial < o.state.nextSerial
      && |o.state.users| == |s.users|
      && o.state.users[id] == s.users[id].(refreshToken := Some(pair.refreshToken))
      && forall j :: 0 <= j < |s.users| && j != id ==> o.state.users[j] == s.users[j]
    ensures Valid(s) ==> Valid(o.state)
  {
    match IncomingRefreshToken(req)
    case None => Outcome(s, Err(Unauthorized))
    case Some(t) =>
      match env.verifyRefresh(t)
      case None => Outcome(s, Err(Unauthorized))
      case Some(id) =>
        match FindById(s, id)
        case None => Outcome(s, Err(Unauthorized))
        case Some(u) =>
          if Some(t) != u.refreshToken then Outcome(s, Err(Unauthorized))
          else GenerateAccessAndRefreshToken(s, id, env)
  }

  /** The `catch` around the action: every error becomes 401. */
  function RewrapAsUnauthorized<R>(o: Outcome<R>): Outcome<R>
  {
    match o.reply
    case Ok(_) => o
    case Err(_) => Outcome(o.state, Err(Unauthorized))
  }

  /** The response built from the new pair by destructuring `accessToken` and
      `refreshKey` out of it. */
  function RefreshReply(o: Outcome<TokenPair>, refreshKey: string): Outcome<RefreshResponse>
  {
    match o.reply
    case Err(e) => Outcome(o.state, Err(e))
    case Ok(pair) =>
      Outcome(o.state, Ok(RefreshResponse(PairProperty(pair, "accessToken"), PairProperty(pair, refreshKey))))
  }

  /** `refreshAccessToken` as written: it destructures `newRefreshToken`,
      a key the pair does not have, so the reply carries no refresh token. */
  function RefreshAccessToken(s: State, req: RefreshRequest, env: Env): (o: Outcome<RefreshResponse>)
    ensures o.reply.Err? ==> o.state == s && o.reply.error == Unauthorized
    ensures o.reply.Ok? <==> RefreshAccepted(s, req, env) && env.signingConfigured
    ensures o.reply.Ok? ==>
      var id := env.verifyRefresh(IncomingRefreshToken(req).value).value;
      && o.reply.value.accessToken.Some?
      && o.reply.value.accessToken.value.kind == Access
      && o.reply.value.accessToken.value.subject == id
      && o.reply.value.refreshToken.None?
      && |o.state.users| == |s.users|
      && o.state.users[id].refreshToken.Some?
      && o.state.users[id] == s.users[id].(refreshToken := o.state.users[id].refreshToken)
      && o.state.users[id].refreshToken.value.kind == Refresh
      && o.state.users[id].refreshToken.value.subject == id
      && s.nextSerial <= o.state.users[id].refreshToken.value.serial < o.state.nextSerial
      && forall j :: 0 <= j < |s.users| && j != id ==> o.state.users[j] == s.users[j]
    ensures Valid(s) && o.reply.Ok? ==>
      var id := env.verifyRefresh(IncomingRefreshToken(req).value).value;
      o.state.users[id].refreshToken != IncomingRefreshToken(req)
    ensures Valid(s) ==> Valid(o.state)
  {
    RewrapAsUnauthorized(RefreshReply(RotateRefreshToken(s, req, env), "newRefreshToken"))
  }
}

=== FILE: findings.dfy ===
/** Three defects of the controller as written, each shown on the literal
    model and fixed in a corrected definition with the intended property. */
module Findings {
  import opened Base
  import opened Http
  import opened JsText
  import opened Store
  import opened UserController
  import opened Session

  // ---------------------------------------------------------------------
  // 1. The refresh reply drops the rotated refresh token
  // ---------------------------------------------------------------------

  /** As written, a successful refresh leaves the client with no token that
      refreshes again: the reply has no refresh token, the presented token was
      consumed, and the returned access token is not a refresh token. */
  lemma RefreshStrandsClient(s: State, req: RefreshRequest, env: Env)
    requires Valid(s)
    requires RefreshAccessToken(s, req, env).reply.Ok?
    ensures var o := RefreshAccessToken(s, req, env);
            && o.reply.value.refreshToken.None?
            && RefreshAccessToken(o.state, RefreshRequest(IncomingRefreshToken(req), None), env).reply.Err?
            && RefreshAccessToken(o.state, RefreshRequest(o.reply.value.accessToken, None), env).reply.Err?
  {
    var o := RefreshAccessToken(s, req, env);
    RefreshConsumesToken(s, req, env);
    assert !RefreshAccepted(o.state, RefreshRequest(IncomingRefreshToken(req), None), env);
    AccessTokenNeverRefreshes(o.state, RefreshRequest(o.reply.value.accessToken, None), env);
  }

  /** A verifier that accepts exactly the refresh tokens, naming their subject. */
  function HonestVerifier(t: Token): Option<UserId> {
    if t.kind == Refresh then Some(t.subject) else None
  }

  /** A concrete run: user 0 holds refresh token 1; refreshing with it
      succeeds, yet the reply carries no refresh token and the token the
      client still holds is refused on the next call. */
  lemma RefreshStrandsClientExample()
    ensures var u := User("alice", "a@x.io", "Alice", "h", "https://img/a", "", Some(Token(Refresh, 0, 1)));
            var s := State([u], 2);
            var env := Env(true, HonestVerifier, (p: string) => p, (v: User, p: Option<string>) => true);
            var req := RefreshRequest(Some(Token(Refresh, 0, 1)), None);
            var o := RefreshAccessToken(s, req, env);
            && o.reply.Ok?
            && o.reply.value.refreshToken == None
            && o.state.users[0].refreshToken == Some(Token(Refresh, 0, 3))
            && RefreshAccessToken(o.state, req, env).reply == Err(Unauthorized)
  {
  }

  /** The corrected refresh: destructures `refreshToken`, the key the pair
      actually has, so the reply carries the token that is now stored. */
  function RefreshAccessTokenCorrected(s: State, req: RefreshRequest, env: Env): (o: Outcome<RefreshResponse>)
    ensures o.reply.Err? ==> o.state == s && o.reply.error == Unauthorized
    ensures o.reply.Ok? <==> RefreshAccepted(s, req, env) && env.signingConfigured
    ensures o.reply.Ok? ==>
      var id := env.verifyRefresh(IncomingRefreshToken(req).value).value;
      && o.reply.value.refreshToken.Some?
      && o.reply.value.refreshToken.value.subject == id
      && o.reply.value.refreshToken.value.kind == Refresh
      && |o.state.users| == |s.users|
      && o.state.users[id].refreshToken == o.reply.value.refreshToken
      && o.state.users[id] == s.users[id].(refreshToken := o.reply.value.refreshToken)
      && s.nextSerial <= o.reply.value.refreshToken.value.serial < o.state.nextSerial
      && forall j :: 0 <= j < |s.users| && j != id ==> o.state.users[j] == s.users[j]
    ensures Valid(s) ==> Valid(o.state)
  {
    RewrapAsUnauthorized(RefreshReply(RotateRefreshToken(s, req, env), "refreshToken"))
  }

  /** With the correction, the refresh token a refresh returns refreshes
      again (while it verifies and signing works): the session continues. */
  lemma CorrectedRefreshChains(s: State, req: RefreshRequest, env: Env)
    requires env.signingConfigured
    requires forall t: Token :: t.kind == Refresh ==> env.verifyRefresh(t) == Some(t.subject)
    requires RefreshAccessTokenCorrected(s, req, env).reply.Ok?
    ensures var o := RefreshAccessTokenCorrected(s, req, env);
            RefreshAccessTokenCorrected(o.state, RefreshRequest(o.reply.value.refreshToken, None), env).reply.Ok?
  {
    var o := RefreshAccessTokenCorrected(s, req, env);
    var next := RefreshRequest(o.reply.value.refreshToken, None);
    assert RefreshAccepted(o.state, next, env);
  }

  // ---------------------------------------------------------------------
  // 2. The conflict check compares the raw username with stored lower-case ones
  // ---------------------------------------------------------------------

  /** No two stored users share a username. */
  predicate UniqueUsernames(users: seq<User>) {
    forall i, j :: 0 <= i < j < |users| ==> users[i].username != users[j].username
  }

  /** No two stored users share an email. */
  predicate UniqueEmails(users: seq<User>) {
    forall i, j :: 0 <= i < j < |users| ==> users[i].email != users[j].email
  }

  /** As written, a username whose lower-cased form is already stored, with
      an email nobody has, passes the conflict check whenever the raw
      username is not itself stored; the store then holds that lower-cased
      username twice. */
  lemma RegisterAdmitsCaseVariant(s: State, req: RegisterRequest, host: HostReplies, env: Env, k: nat)
    requires !AnyBlank(req) && AllPresent(req) && HasAvatarPath(req.files) && host.avatarUrl.Some?
    requires forall i :: 0 <= i < |s.users| ==>
      s.users[i].email != req.email.value && s.users[i].username != req.username.value
    requires k < |s.users| && s.users[k].username == ToLower(req.username.value)
    ensures RegisterUser(s, req, host, env).reply.Ok?
    ensures !UniqueUsernames(RegisterUser(s, req, host, env).state.users)
  {
    assert !AnyMatch(s.users, ConflictCriteria(req));
    var o := RegisterUser(s, req, host, env);
    assert o.state.users[k] == s.users[k];
    assert o.state.users[k].username == o.state.users[|s.users|].username;
  }

  /** The concrete case: registering "Alice" while "alice" exists (with a
      fresh email) succeeds and stores a second "alice". */
  lemma RegisterAdmitsCaseVariantDuplicate()
    ensures var o := RegisterUser(AliceStored(), BobAsAlice(), HostReplies(Some("https://img/b"), None), PlainEnv());
            o.reply.Ok? && !UniqueUsernames(o.state.users)
  {
    BobAsAliceEligible();
    AliceIsBobFolded();
    RegisterAdmitsCaseVariant(AliceStored(), BobAsAlice(), HostReplies(Some("https://img/b"), None), PlainEnv(), 0);
  }

  /** The request has no blank field, all fields present and an avatar path. */
  lemma BobAsAliceEligible()
    ensures !AnyBlank(BobAsAlice()) && AllPresent(BobAsAlice()) && HasAvatarPath(BobAsAlice().files)
  {
    NotBlank("Bob");
    NotBlank("Alice");
    NotBlank("b@x.io");
    NotBlank("pw");
  }

  /** The stored "alice" is the lower-cased "Alice", and its raw username and
      email differ from the request's. */
  lemma AliceIsBobFolded()
    ensures AliceStored().users[0].username == ToLower(BobAsAlice().username.value)
    ensures forall i :: 0 <= i < |AliceStored().users| ==>
      AliceStored().users[i].email != BobAsAlice().email.value
      && AliceStored().users[i].username != BobAsAlice().username.value
  {
    assert ToLower("Alice")[0] == 'a';
  }

  /** A store holding only "alice". */
  function AliceStored(): State {
    State([User("alice", "a@x.io", "Alice", "h", "https://img/a", "", None)], 0)
  }

  /** Bob registering under the username "Alice" with a new email and an avatar. */
  function BobAsAlice(): RegisterRequest {
    RegisterRequest(Some("Bob"), Some("Alice"), Some("b@x.io"), Some("pw"),
                    Some(Files(Some([FileEntry("tmp/b.png")]), None)))
  }

  /** Collaborators that always succeed. */
  function PlainEnv(): Env {
    Env(true, HonestVerifier, (p: string) => p, (v: User, p: Option<string>) => true)
  }

  /** A string whose first character is not whitespace is not blank. */
  lemma NotBlank(text: string)
    requires |text| > 0 && !IsTrimmable(text[0])
    ensures !IsBlankField(Some(text))
  {
    TrimEmptyIffAllTrimmable(text);
  }

  /** Appending a user whose username (email) no stored user has keeps the
      usernames (emails) unique. */
  lemma AppendKeepsUnique(users: seq<User>, u: User)
    ensures UniqueUsernames(users) && (forall i :: 0 <= i < |users| ==> users[i].username != u.username)
            ==> UniqueUsernames(users + [u])
    ensures UniqueEmails(users) && (forall i :: 0 <= i < |users| ==> users[i].email != u.email)
            ==> UniqueEmails(users + [u])
  {
  }

  /** The conflict filter with the username lower-cased as it is stored. */
  function FoldedConflictCriteria(req: RegisterRequest): Criteria
  {
    match req.username
    case None => Criteria(None, req.email)
    case Some(name) => Criteria(Some(ToLower(name)), req.email)
  }

  /** The corrected registration: the conflict lookup lower-cases the
      username, so usernames stay unique. */
  function RegisterUserCorrected(s: State, req: RegisterRequest, host: HostReplies, env: Env): (o: Outcome<UserView>)
    ensures o.reply.Err? ==> o.state == s
    ensures AnyBlank(req) ==> o.reply == Err(BadRequest)
    ensures !AnyBlank(req) && AnyMatch(s.users, FoldedConflictCriteria(req)) ==> o.reply == Err(Conflict)
    ensures o.reply.Ok? <==>
      && !AnyBlank(req) && !AnyMatch(s.users, FoldedConflictCriteria(req))
      && HasAvatarPath(req.files) && host.avatarUrl.Some? && AllPresent(req)
    ensures o.reply.Ok? ==> Registered(s, req, host, env, o)
    ensures UniqueUsernames(s.users) ==> UniqueUsernames(o.state.users)
    ensures UniqueEmails(s.users) ==> UniqueEmails(o.state.users)
    ensures Valid(s) ==> Valid(o.state)
  {
    if AnyBlank(req) then Outcome(s, Err(BadRequest))
    else if FindOne(s.users, FoldedConflictCriteria(req)).Some? then Outcome(s, Err(Conflict))
    else
      var o := CreateUser(s, req, host, env);
      if o.reply.Ok? then
        var u := o.state.users[|s.users|];
        assert o.state.users == s.users + [u];
        assert forall i :: 0 <= i < |s.users| ==> !Matches(s.users[i], FoldedConflictCriteria(req));
        AppendKeepsUnique(s.users, u);
        o
      else o
  }

  /** The correction changes nothing for a request that neither the raw nor
      the lower-cased lookup finds in the store. */
  lemma CorrectedAgreesWithoutConflict(s: State, req: RegisterRequest, host: HostReplies, env: Env)
    requires !AnyMatch(s.users, ConflictCriteria(req))
    requires !AnyMatch(s.users, FoldedConflictCriteria(req))
    ensures RegisterUserCorrected(s, req, host, env) == RegisterUser(s, req, host, env)
  {
  }

  /** The as-written registration still keeps emails unique: the email is
      looked up exactly as it is stored. */
  lemma RegisterKeepsEmailsUnique(s: State, req: RegisterRequest, host: HostReplies, env: Env)
    requires UniqueEmails(s.users)
    ensures UniqueEmails(RegisterUser(s, req, host, env).state.users)
  {
    var o := RegisterUser(s, req, host, env);
    if o.reply.Ok? {
      var u := o.state.users[|s.users|];
      assert o.state.users == s.users + [u];
      assert forall i :: 0 <= i < |s.users| ==> !Matches(s.users[i], ConflictCriteria(req));
      AppendKeepsUnique(s.users, u);
    }
  }

  // ---------------------------------------------------------------------
  // 3. Logout sets the refresh token to `undefined`
  // ---------------------------------------------------------------------

  /** The logout as a document store that drops `undefined` keys from an
      update (Mongoose 6 and later) runs it: the `$set` is empty, so the
      store is left as it was, while the reply still reports success. */
  function LogoutUserUndefinedDropped(s: State, identity: Option<UserId>): (o: Outcome<()>)
    ensures o.state == s
    ensures o.reply.Ok? <==> identity.Some?
    ensures o.reply.Err? ==> o.reply.error == InternalError
  {
    match identity
    case None => Outcome(s, Err(InternalError))
    case Some(_) => Outcome(s, Ok(()))
  }

  /** Under that reading, a refresh token held before logout still refreshes
      after a successful logout: the session is not ended. */
  lemma LogoutLeavesSessionOpen(s: State, id: UserId, t: Token, env: Env)
    requires id < |s.users| && s.users[id].refreshToken == Some(t)
    requires env.verifyRefresh(t) == Some(id) && env.signingConfigured
    ensures LogoutUserUndefinedDropped(s, Some(id)).reply.Ok?
    ensures RefreshAccessToken(LogoutUserUndefinedDropped(s, Some(id)).state,
                               RefreshRequest(Some(t), None), env).reply.Ok?
  {
    assert RefreshAccepted(s, RefreshRequest(Some(t), None), env);
  }
}

=== FILE: session.dfy ===
/** Properties of the session protocol that relate several requests: token
    rotation, stale-token rejection, logout, duplicate registration, the
    store invariant over any sequence of requests, and revocation that lasts
    through any later requests. */
module Session {
  import opened Base
  import opened Http
  import opened JsText
  import opened Store
  import opened UserController

  // ---------------------------------------------------------------------
  // Rotation on login
  // ---------------------------------------------------------------------

  /** After a successful login, a refresh request with any token issued
      before the login that names the same user is refused with 401: the
      login overwrote that user's only stored token. */
  lemma LoginRevokesEarlierTokens(s: State, login: LoginRequest, env: Env, req: RefreshRequest)
    requires LoginUser(s, login, env).reply.Ok?
    requires IncomingRefreshToken(req).Some?
    requires IncomingRefreshToken(req).value.serial < s.nextSerial
    requires env.verifyRefresh(IncomingRefreshToken(req).value)
             == Some(LoginUser(s, login, env).reply.value.user.value.id)
    ensures RefreshAccessToken(LoginUser(s, login, env).state, req, env).reply == Err(Unauthorized)
  {
    var o := LoginUser(s, login, env);
    var id := o.reply.value.user.value.id;
    assert o.state.users[id].refreshToken == Some(o.reply.value.refreshToken);
    assert !RefreshAccepted(o.state, req, env);
  }

  /** The token handed back by login is the live one: presenting it (while
      it still verifies and signing works) refreshes the session. */
  lemma LoginTokenRefreshes(s: State, login: LoginRequest, env: Env)
    requires LoginUser(s, login, env).reply.Ok?
    requires env.signingConfigured
    requires var resp := LoginUser(s, login, env).reply.value;
             env.verifyRefresh(resp.refreshToken) == Some(resp.user.value.id)
    ensures var o := LoginUser(s, login, env);
            RefreshAccessToken(o.state, RefreshRequest(Some(o.reply.value.refreshToken), None), env).reply.Ok?
  {
    var o := LoginUser(s, login, env);
    assert RefreshAccepted(o.state, RefreshRequest(Some(o.reply.value.refreshToken), None), env);
  }

  // ---------------------------------------------------------------------
  // Rotation on refresh
  // ---------------------------------------------------------------------

  /** A consumed refresh token is refused if presented again. */
  lemma RefreshConsumesToken(s: State, req: RefreshRequest, env: Env)
    requires Valid(s)
    requires RefreshAccessToken(s, req, env).reply.Ok?
    ensures RefreshAccessToken(RefreshAccessToken(s, req, env).state, req, env).reply == Err(Unauthorized)
  {
    var o := RefreshAccessToken(s, req, env);
    assert !RefreshAccepted(o.state, req, env);
  }

  /** After a successful refresh, every token issued before it that names the
      same user is refused. */
  lemma RefreshRevokesEarlierTokens(s: State, req: RefreshRequest, env: Env, later: RefreshRequest)
    requires RefreshAccessToken(s, req, env).reply.Ok?
    requires IncomingRefreshToken(later).Some?
    requires IncomingRefreshToken(later).value.serial < s.nextSerial
    requires env.verifyRefresh(IncomingRefreshToken(later).value)
             == env.verifyRefresh(IncomingRefreshToken(req).value)
    ensures RefreshAccessToken(RefreshAccessToken(s, req, env).state, later, env).reply == Err(Unauthorized)
  {
    var o := RotateRefreshToken(s, req, env);
    var id := env.verifyRefresh(IncomingRefreshToken(req).value).value;
    assert o.state.users[id].refreshToken == Some(o.reply.value.refreshToken);
    assert !RefreshAccepted(o.state, later, env);
  }

  /** An access token never refreshes a session, whatever the verifier says:
      only refresh tokens are ever stored. */
  lemma AccessTokenNeverRefreshes(s: State, req: RefreshRequest, env: Env)
    requires Valid(s)
    requires IncomingRefreshToken(req).Some? && IncomingRefreshToken(req).value.kind == Access
    ensures RefreshAccessToken(s, req, env) == Outcome(s, Err(Unauthorized))
  {
    var t := IncomingRefreshToken(req).value;
    if env.verifyRefresh(t).Some? && env.verifyRefresh(t).value < |s.users| {
      assert StoredTokenOk(s.users[env.verifyRefresh(t).value].refreshToken, env.verifyRefresh(t).value, s.nextSerial);
    }
  }

  // ---------------------------------------------------------------------
  // Logout
  // ---------------------------------------------------------------------

  /** Logging out twice is the same as logging out once. */
  lemma LogoutIdempotent(s: State, identity: Option<UserId>)
    ensures LogoutUser(LogoutUser(s, identity).state, identity) == LogoutUser(s, identity)
  {
  }

  /** After logout, no refresh token names that user's session any more. */
  lemma LogoutEndsSession(s: State, id: UserId, env: Env, req: RefreshRequest)
    requires IncomingRefreshToken(req).Some?
    requires env.verifyRefresh(IncomingRefreshToken(req).value) == Some(id)
    ensures RefreshAccessToken(LogoutUser(s, Some(id)).state, req, env).reply == Err(Unauthorized)
  {
    var o := LogoutUser(s, Some(id));
    assert !RefreshAccepted(o.state, req, env);
  }

  // ---------------------------------------------------------------------
  // Registration
  // ---------------------------------------------------------------------

  /** A second registration with an email already registered is a conflict. */
  lemma RegisterSameEmailConflicts(s: State, first: RegisterRequest, second: RegisterRequest,
                                   host: HostReplies, env: Env)
    requires RegisterUser(s, first, host, env).reply.Ok?
    requires !AnyBlank(second) && second.email == first.email
    ensures forall host2: HostReplies ::
      RegisterUser(RegisterUser(s, first, host, env).state, second, host2, env).reply == Err(Conflict)
  {
    var o := RegisterUser(s, first, host, env);
    assert Matches(o.state.users[|s.users|], ConflictCriteria(second));
  }

  /** A second registration with the same username is a conflict when the
      username was already lower case (it is stored lower-cased, but looked
      up as received). */
  lemma RegisterSameLowerUsernameConflicts(s: State, first: RegisterRequest, second: RegisterRequest,
                                           host: HostReplies, env: Env)
    requires RegisterUser(s, first, host, env).reply.Ok?
    requires !AnyBlank(second) && second.username == first.username
    requires ToLower(first.username.value) == first.username.value
    ensures forall host2: HostReplies ::
      RegisterUser(RegisterUser(s, first, host, env).state, second, host2, env).reply == Err(Conflict)
  {
    var o := RegisterUser(s, first, host, env);
    assert Matches(o.state.users[|s.users|], ConflictCriteria(second));
  }

  // ---------------------------------------------------------------------
  // Any sequence of requests
  // ---------------------------------------------------------------------

  /** One inbound request to one of the four actions, together with the
      media host's answers for a registration. */
  datatype Request =
    | RegisterCall(register: RegisterRequest, host: HostReplies)
    | LoginCall(login: LoginRequest)
    | LogoutCall(identity: Option<UserId>)
    | RefreshCall(refresh: RefreshRequest)

  datatype Response =
    | RegisteredUser(view: UserView)
    | LoggedIn(login: LoginResponse)
    | LoggedOut
    | Refreshed(tokens: RefreshResponse)

  function Lift<R>(o: Outcome<R>, wrap: R -> Response): Outcome<Response>
  {
    match o.reply
    case Ok(v) => Outcome(o.state, Ok(wrap(v)))
    case Err(e) => Outcome(o.state, Err(e))
  }

  /** Dispatches one request to its action. */
  function Step(s: State, r: Request, env: Env): (o: Outcome<Response>)
    ensures o.reply.Err? ==> o.state == s
    ensures Valid(s) ==> Valid(o.state)
    ensures o.state.nextSerial >= s.nextSerial
    ensures |o.state.users| >= |s.users|
  {
    match r
    case RegisterCall(req, host) => Lift(RegisterUser(s, req, host, env), v => RegisteredUser(v))
    case LoginCall(req) => Lift(LoginUser(s, req, env), v => LoggedIn(v))
    case LogoutCall(identity) => Lift(LogoutUser(s, identity), (_: ()) => LoggedOut)
    case RefreshCall(req) => Lift(RefreshAccessToken(s, req, env), v => Refreshed(v))
  }

  /** A request together with the collaborators as they answer when it is
      served: the verifier's answer (expiry included) and whether signing
      works may differ from one request to the next. */
  datatype Call = Call(request: Request, env: Env)

  /** The store after serving the calls one after the other. */
  function Run(s: State, cs: seq<Call>): State
    decreases |cs|
  {
    if |cs| == 0 then s else Run(Step(s, cs[0].request, cs[0].env).state, cs[1..])
  }

  /** Every reachable store satisfies the invariant. */
  lemma {:induction false} RunPreservesValid(s: State, cs: seq<Call>)
    requires Valid(s)
    ensures Valid(Run(s, cs))
    decreases |cs|
  {
    if |cs| > 0 {
      RunPreservesValid(Step(s, cs[0].request, cs[0].env).state, cs[1..]);
    }
  }

  /** Users are never removed and the token counter never goes back. */
  lemma {:induction false} RunGrows(s: State, cs: seq<Call>)
    ensures |Run(s, cs).users| >= |s.users|
    ensures Run(s, cs).nextSerial >= s.nextSerial
    decreases |cs|
  {
    if |cs| > 0 {
      RunGrows(Step(s, cs[0].request, cs[0].env).state, cs[1..]);
    }
  }

  /** A run whose every call fails leaves the store as it was. */
  lemma {:induction false} FailedRunUnchanged(s: State, cs: seq<Call>)
    requires forall k :: 0 <= k < |cs| ==> Step(s, cs[k].request, cs[k].env).reply.Err?
    ensures Run(s, cs) == s
    decreases |cs|
  {
    if |cs| > 0 {
      assert Step(s, cs[0].request, cs[0].env).reply.Err?;
      assert forall k :: 0 <= k < |cs[1..]| ==> cs[1..][k] == cs[k + 1];
      FailedRunUnchanged(s, cs[1..]);
    }
  }

  /** Every store reachable from the empty one satisfies the invariant. */
  lemma ReachableValid(cs: seq<Call>)
    ensures Valid(Run(Empty, cs))
  {
    RunPreservesValid(Empty, cs);
  }

  // ---------------------------------------------------------------------
  // Revocation is permanent
  // ---------------------------------------------------------------------

  /** User `id` exists, the counter has passed `m`, and the user holds no
      token issued before `m`. */
  predicate NoTokenBefore(s: State, id: UserId, m: nat) {
    && id < |s.users|
    && m <= s.nextSerial
    && (s.users[id].refreshToken.None? || s.users[id].refreshToken.value.serial >= m)
  }

  /** Registration only appends a user, so existing tokens are untouched. */
  lemma RegisterKeepsNoTokenBefore(s: State, req: RegisterRequest, host: HostReplies, env: Env, id: UserId, m: nat)
    requires NoTokenBefore(s, id, m)
    ensures NoTokenBefore(RegisterUser(s, req, host, env).state, id, m)
  {
    var o := RegisterUser(s, req, host, env);
    if o.reply.Ok? {
      assert o.state.users[id] == o.state.users[..|s.users|][id];
    }
  }

  /** Login either leaves user `id`'s token alone or replaces it by a fresh one. */
  lemma LoginKeepsNoTokenBefore(s: State, req: LoginRequest, env: Env, id: UserId, m: nat)
    requires NoTokenBefore(s, id, m)
    ensures NoTokenBefore(LoginUser(s, req, env).state, id, m)
  {
  }

  /** Logout either leaves user `id`'s token alone or clears it. */
  lemma LogoutKeepsNoTokenBefore(s: State, identity: Option<UserId>, id: UserId, m: nat)
    requires NoTokenBefore(s, id, m)
    ensures NoTokenBefore(LogoutUser(s, identity).state, id, m)
  {
  }

  /** Refresh either leaves user `id`'s token alone or replaces it by a fresh one. */
  lemma RefreshKeepsNoTokenBefore(s: State, req: RefreshRequest, env: Env, id: UserId, m: nat)
    requires NoTokenBefore(s, id, m)
    ensures NoTokenBefore(RefreshAccessToken(s, req, env).state, id, m)
  {
  }

  /** Each action either leaves user `id`'s token alone, clears it, or
      replaces it by a freshly issued one, so no older token comes back. */
  lemma StepKeepsNoTokenBefore(s: State, r: Request, env: Env, id: UserId, m: nat)
    requires NoTokenBefore(s, id, m)
    ensures NoTokenBefore(Step(s, r, env).state, id, m)
  {
    match r
    case RegisterCall(req, host) => RegisterKeepsNoTokenBefore(s, req, host, env, id, m);
    case LoginCall(req) => LoginKeepsNoTokenBefore(s, req, env, id, m);
    case LogoutCall(identity) => LogoutKeepsNoTokenBefore(s, identity, id, m);
    case RefreshCall(req) => RefreshKeepsNoTokenBefore(s, req, env, id, m);
  }

  /** No sequence of calls hands user `id` a token issued before `m`. */
  lemma {:induction false} RunKeepsNoTokenBefore(s: State, cs: seq<Call>, id: UserId, m: nat)
    requires NoTokenBefore(s, id, m)
    ensures NoTokenBefore(Run(s, cs), id, m)
    decreases |cs|
  {
    if |cs| > 0 {
      StepKeepsNoTokenBefore(s, cs[0].request, cs[0].env, id, m);
      RunKeepsNoTokenBefore(Step(s, cs[0].request, cs[0].env).state, cs[1..], id, m);
    }
  }

  /** A refresh token about `id` issued before `m` is refused, whatever the
      verifier answers, once `id` holds no token issued before `m`. */
  lemma StaleTokenRefused(s: State, id: UserId, m: nat, req: RefreshRequest, env: Env)
    requires Valid(s) && NoTokenBefore(s, id, m)
    requires IncomingRefreshToken(req).Some?
    requires IncomingRefreshToken(req).value.subject == id
    requires IncomingRefreshToken(req).value.serial < m
    ensures RefreshAccessToken(s, req, env) == Outcome(s, Err(Unauthorized))
  {
    var t := IncomingRefreshToken(req).value;
    if env.verifyRefresh(t).Some? && env.verifyRefresh(t).value < |s.users| {
      var holder := env.verifyRefresh(t).value;
      assert StoredTokenOk(s.users[holder].refreshToken, holder, s.nextSerial);
    }
  }

  /** A refresh token consumed by a successful refresh stays refused after
      any later sequence of calls, whatever the collaborators answer then. */
  lemma ConsumedTokenStaysRevoked(s: State, req: RefreshRequest, env: Env, cs: seq<Call>, later: Env)
    requires Valid(s)
    requires RefreshAccessToken(s, req, env).reply.Ok?
    ensures var f := Run(RefreshAccessToken(s, req, env).state, cs);
            RefreshAccessToken(f, req, later) == Outcome(f, Err(Unauthorized))
  {
    var t := IncomingRefreshToken(req).value;
    var id := env.verifyRefresh(t).value;
    assert StoredTokenOk(s.users[id].refreshToken, id, s.nextSerial);
    var o := RefreshAccessToken(s, req, env);
    assert NoTokenBefore(o.state, id, s.nextSerial);
    RunKeepsNoTokenBefore(o.state, cs, id, s.nextSerial);
    RunPreservesValid(o.state, cs);
    StaleTokenRefused(Run(o.state, cs), id, s.nextSerial, req, later);
  }

  /** Every refresh token issued to a user before that user's successful
      login stays refused after any later sequence of calls. */
  lemma LoginRevokesEarlierTokensForever(s: State, login: LoginRequest, env: Env, cs: seq<Call>,
                                         req: RefreshRequest, later: Env)
    requires Valid(s)
    requires LoginUser(s, login, env).reply.Ok?
    requires IncomingRefreshToken(req).Some?
    requires IncomingRefreshToken(req).value.subject == LoginUser(s, login, env).reply.value.user.value.id
    requires IncomingRefreshToken(req).value.serial < s.nextSerial
    ensures var f := Run(LoginUser(s, login, env).state, cs);
            RefreshAccessToken(f, req, later) == Outcome(f, Err(Unauthorized))
  {
    var o := LoginUser(s, login, env);
    var id := o.reply.value.user.value.id;
    assert NoTokenBefore(o.state, id, s.nextSerial);
    RunKeepsNoTokenBefore(o.state, cs, id, s.nextSerial);
    RunPreservesValid(o.state, cs);
    StaleTokenRefused(Run(o.state, cs), id, s.nextSerial, req, later);
  }

  /** Every refresh token issued to a user before that user logged out stays
      refused after any later sequence of calls. */
  lemma LogoutRevokesTokensForever(s: State, id: UserId, cs: seq<Call>, req: RefreshRequest, later: Env)
    requires Valid(s) && id < |s.users|
    requires IncomingRefreshToken(req).Some?
    requires IncomingRefreshToken(req).value.subject == id
    requires IncomingRefreshToken(req).value.serial < s.nextSerial
    ensures var f := Run(LogoutUser(s, Some(id)).state, cs);
            RefreshAccessToken(f, req, later) == Outcome(f, Err(Unauthorized))
  {
    var o := LogoutUser(s, Some(id));
    assert NoTokenBefore(o.state, id, s.nextSerial);
    RunKeepsNoTokenBefore(o.state, cs, id, s.nextSerial);
    RunPreservesValid(o.state, cs);
    StaleTokenRefused(Run(o.state, cs), id, s.nextSerial, req, later);
  }
}

=== FILE: store.dfy ===
/** The user collection the controller reads and writes, the tokens it
    stores, and the collaborators it calls into (signing, verification,
    password hashing). */
module Store {
  import opened Base
  import opened Http

  /** A user's `_id`. Users are never deleted, so the id is the position of
      the record in creation order. */
  type UserId = nat

  datatype TokenKind = Access | Refresh

  /** A signed token. `serial` stands for everything that makes one issued
      token differ from every other one (issue time, nonce, signature). */
  datatype Token = Token(kind: TokenKind, subject: UserId, serial: nat)

  /** A stored user document; `refreshToken` is `None` when no session is
      active. */
  datatype User = User(
    username: string,
    email: string,
    fullname: string,
    passwordHash: string,
    avatar: string,
    coverImage: string,
    refreshToken: Option<Token>)

  /** The whole store plus the issuer's counter: every token issued so far
      has a serial below `nextSerial`. */
  datatype State = State(users: seq<User>, nextSerial: nat)

  /** What a controller action leaves behind: the store after it ran, and
      the reply it sent. */
  datatype Outcome<+R> = Outcome(state: State, reply: Reply<R>)

  /** The record as returned to a caller by `select("-password -refreshToken")`. */
  datatype UserView = UserView(
    id: UserId,
    username: string,
    email: string,
    fullname: string,
    avatar: string,
    coverImage: string)

  /** The collaborators the controller calls but does not define:
      - `signingConfigured`: whether `generateAccessToken`/`generateRefreshToken`
        can sign (they throw when a secret or expiry setting is missing);
      - `verifyRefresh`: `jwt.verify` with the refresh secret, giving the
        `_id` claim, or `None` when the token is forged, expired, malformed
        or carries no id;
      - `hash`: the pre-save hook that hashes the password;
      - `passwordOk`: `isPasswordCorrect` on a user and the supplied password. */
  datatype Env = Env(
    signingConfigured: bool,
    verifyRefresh: Token -> Option<UserId>,
    hash: string -> string,
    passwordOk: (User, Option<string>) -> bool)

  /** The store before any request. */
  const Empty: State := State([], 0)

  /** A refresh token slot of user `owner` is well-formed: empty, or a
      refresh token about `owner` issued before `bound`. */
  predicate StoredTokenOk(slot: Option<Token>, owner: UserId, bound: nat) {
    slot.None? || (slot.value.kind == Refresh && slot.value.subject == owner && slot.value.serial < bound)
  }

  /** The store invariant: every stored token is a refresh token about the
      user who holds it, which the issuer has already handed out. */
  predicate Valid(s: State) {
    forall i :: 0 <= i < |s.users| ==> StoredTokenOk(s.users[i].refreshToken, i, s.nextSerial)
  }

  /** `user.findById(id)`. */
  function FindById(s: State, id: UserId): Option<User>
  {
    if id < |s.users| then Some(s.users[id]) else None
  }

  /** The filter `{$or: [{username}, {email}]}`. A criterion whose value is
      `undefined` is sent as `null`, which no stored user matches because both
      fields are required. */
  datatype Criteria = Criteria(username: Option<string>, email: Option<string>)

  predicate Matches(u: User, c: Criteria) {
    || (c.username.Some? && u.username == c.username.value)
    || (c.email.Some? && u.email == c.email.value)
  }

  /** Some stored user matches the filter. */
  predicate AnyMatch(users: seq<User>, c: Criteria) {
    exists i :: 0 <= i < |users| && Matches(users[i], c)
  }

  function FindOneFrom(users: seq<User>, c: Criteria, from: nat): (r: Option<UserId>)
    requires from <= |users|
    ensures r.Some? ==> from <= r.value < |users| && Matches(users[r.value], c)
    ensures r.Some? ==> forall j :: from <= j < r.value ==> !Matches(users[j], c)
    ensures r.None? ==> forall j :: from <= j < |users| ==> !Matches(users[j], c)
    decreases |users| - from
  {
    if from == |users| then None
    else if Matches(users[from], c) then Some(from)
    else FindOneFrom(users, c, from + 1)
  }

  /** `user.findOne(filter)`: the earliest-created user that matches, or
      nothing when no user matches. */
  function FindOne(users: seq<User>, c: Criteria): (r: Option<UserId>)
    ensures r.None? <==> !AnyMatch(users, c)
    ensures r.Some? ==> r.value < |users| && Matches(users[r.value], c)
    ensures r.Some? ==> forall j :: 0 <= j < r.value ==> !Matches(users[j], c)
  {
    FindOneFrom(users, c, 0)
  }

  /** `select("-password -refreshToken")` applied to the record with id `id`. */
  function Sanitize(id: UserId, u: User): UserView {
    UserView(id, u.username, u.email, u.fullname, u.avatar, u.coverImage)
  }

  /** Writes the refresh-token slot of one user and nothing else. */
  function SetRefreshToken(s: State, id: UserId, slot: Option<Token>): State
    requires id < |s.users|
  {
    s.(users := s.users[id := s.users[id].(refreshToken := slot)])
  }
}

=== FILE: text.dfy ===
/** The parts of JavaScript string semantics the controller relies on:
    `String.prototype.trim`, truthiness of an optional string, and
    `String.prototype.toLowerCase` (restricted to ASCII letters). */
module JsText {
  import opened Base

  /** The characters `trim` removes: ECMAScript WhiteSpace (TAB, VT, FF, SP,
      NBSP, ZWNBSP and the other Zs separators) and LineTerminator (LF, CR,
      LS, PS). */
  predicate IsTrimmable(c: char) {
    || c == '\t' || c == '\n' || c == '\U{000B}' || c == '\U{000C}' || c == '\r'
    || c == ' ' || c == '\U{00A0}' || c == '\U{1680}'
    || ('\U{2000}' <= c <= '\U{200A}')
    || c == '\U{2028}' || c == '\U{2029}' || c == '\U{202F}' || c == '\U{205F}'
    || c == '\U{3000}' || c == '\U{FEFF}'
  }

  /** Drops the leading trimmable characters: the result is the suffix of `s`
      that starts at its first non-trimmable character. */
  function TrimStart(s: string): (r: string)
    ensures |r| <= |s| && r == s[|s| - |r|..]
    ensures forall i :: 0 <= i < |s| - |r| ==> IsTrimmable(s[i])
    ensures |r| > 0 ==> !IsTrimmable(r[0])
  {
    if |s| > 0 && IsTrimmable(s[0]) then TrimStart(s[1..]) else s
  }

  /** Drops the trailing trimmable characters: the result is the prefix of `s`
      that ends at its last non-trimmable character. */
  function TrimEnd(s: string): (r: string)
    ensures |r| <= |s| && r == s[..|r|]
    ensures forall i :: |r| <= i < |s| ==> IsTrimmable(s[i])
    ensures |r| > 0 ==> !IsTrimmable(r[|r| - 1])
  {
    if |s| > 0 && IsTrimmable(s[|s| - 1]) then TrimEnd(s[..|s| - 1]) else s
  }

  /** `r` is the part of `s` that starts at `a`, and everything of `s` before
      and after that part is trimmable. */
  predicate EdgeTrimmed(s: string, r: string, a: nat) {
    && a + |r| <= |s|
    && r == s[a..a + |r|]
    && (forall i :: 0 <= i < a ==> IsTrimmable(s[i]))
    && (forall i :: a + |r| <= i < |s| ==> IsTrimmable(s[i]))
  }

  /** `s.trim()`: the middle of `s` with only whitespace removed from its
      edges, and no whitespace left at either end. */
  function Trim(s: string): (r: string)
    ensures |r| <= |s|
    ensures exists a :: EdgeTrimmed(s, r, a)
    ensures |r| > 0 ==> !IsTrimmable(r[0]) && !IsTrimmable(r[|r| - 1])
  {
    var t := TrimStart(s);
    var r := TrimEnd(t);
    assert EdgeTrimmed(s, r, |s| - |t|);
    r
  }

  /** `field?.trim() === ""`: true only for a PRESENT string made of trimmable
      characters; an absent field is `undefined`, which is not `""`. */
  predicate IsBlankField(field: Option<string>) {
    field.Some? && Trim(field.value) == ""
  }

  /** JavaScript truthiness of a value that is a string or `undefined`. */
  predicate Truthy(field: Option<string>) {
    field.Some? && field.value != ""
  }

  predicate IsAsciiUpper(c: char) {
    'A' <= c <= 'Z'
  }

  function LowerChar(c: char): char {
    if IsAsciiUpper(c) then (c as int + 32) as char else c
  }

  /** `s.toLowerCase()` on ASCII letters; other characters are kept. */
  function ToLower(s: string): (r: string)
    ensures |r| == |s|
    ensures forall i :: 0 <= i < |r| ==> !IsAsciiUpper(r[i])
    ensures forall i :: 0 <= i < |s| && !IsAsciiUpper(s[i]) ==> r[i] == s[i]
    ensures forall i :: 0 <= i < |s| && IsAsciiUpper(s[i]) ==>
      r[i] as int - 'a' as int == s[i] as int - 'A' as int
  {
    seq(|s|, i requires 0 <= i < |s| => LowerChar(s[i]))
  }

  /** `trim()` yields the empty string exactly when every character is
      trimmable, so a field is blank iff it is present and all whitespace. */
  lemma TrimEmptyIffAllTrimmable(s: string)
    ensures Trim(s) == "" <==> forall i :: 0 <= i < |s| ==> IsTrimmable(s[i])
  {
  }
}
